=== FILE: README.md ===
# Chat-ops bot dispatch core, modelled in Dafny

This project models the per-connection dispatch logic of a Hubot-style chat
bot. The bot keeps one connection per configured chat input (Discord, Slack,
Telegram). On each connection it reads events and keeps the non-empty text
messages. It turns each one into a command run against an authenticated
backend session and sends the command's output back to whoever wrote.

The model covers five pieces of `client/bot/bot.go`:

- `process`: one event in, one reply out. The auth backend, the command
  executor and the connection's `Send` are oracles passed in as function
  values.
- `run`: the receive loop on one connection. The transport is a finite
  script of what each iteration of its `select` sees: exit already closed, a
  received event, or a receive error. A script that runs out means `run` is
  still blocked in `Recv`.
- `loop`: reconnect after every `run`, back off after every error, and
  return once exit is seen.
- `start` and `stop`: the input lifecycle.
- The `bot` command's startup: parse the comma-separated `inputs` flag,
  look the names up, start, serve, stop.

Modules, leaves first:

| file | module | what |
|---|---|---|
| base.dfy | `Base` | bytes, `Option`, `Result`, Go errors as their message bytes |
| strings.dfy | `Strings` | `strings.Split` / `strings.Join`, input-name parsing |
| events.dfy | `Events` | events, the text kind, which events are acted on, reply shape |
| bridge.dfy | `Bridge` | `process` |
| dispatch.dfy | `Dispatch` | `run`, `loop` |
| lifecycle.dfy | `Lifecycle` | `start`, `stop`, name resolution, the `bot` command |

Two behaviours of the code are easy to get wrong, and the model follows the
code in both:

- A failed command execution still produces a reply. `process` logs the
  execution error and then sends the command's output back to the sender
  (`client/bot/bot.go:96-107`). `Bridge.Process` sends that reply.
- `stop` never runs after a failed start or a failed service. The `bot`
  command exits with status 1 as soon as `start` returns an error, and a
  service error ends the process through a fatal log
  (`client/bot/bot.go:230-243`). `Lifecycle.Serve` reflects that.

## Model

| member | source | states |
|---|---|---|
| Strings.Split | client/bot/bot.go:70-73 | Splitting on a separator gives one more part than there are separators. So even an empty payload gives one argument, and the `len(args) == 0` guard can never fire. No part contains the separator. |
| Strings.JoinSplit | client/bot/bot.go:70 | Joining the split arguments with single spaces gives back the payload exactly. |
| Strings.SplitJoin | client/bot/bot.go:70 | The other direction of the round trip: splitting a space-join of space-free parts recovers exactly those parts. |
| Strings.InputNames | client/bot/bot.go:191-198 | Every configured input name is non-empty and comma-free. Laid end to end, the names are the flag with its commas removed, in the written order. |
| Strings.SplitAppend | client/bot/bot.go:193 | A separator between two pieces of input is a boundary between their parts: the split of the whole is the split of the first piece followed by the split of the second. |
| Strings.InputNamesSingle | client/bot/bot.go:193-198 | A flag with no comma names nothing if it is empty, and otherwise names exactly itself. |
| Strings.InputNamesAppend | client/bot/bot.go:193-198 | A comma in the flag separates names: the names of `a,b` are the names of `a` followed by the names of `b`. With `InputNamesSingle`, this fixes the result for every flag, empty parts included. |
| Strings.InputNamesRoundTrip | client/bot/bot.go:191-198 | Any list of non-empty, comma-free names written as a comma-separated flag parses back to exactly that list. |
| Bridge.Process | client/bot/bot.go:69-108 | Exactly one reply, addressed back to the sender. If auth fails, the reply carries the auth error's text and the result is nil, whatever `Send` did. If auth succeeds, the reply carries the command's output, even when execution erred, and the result is that `Send`'s outcome. |
| Bridge.ProcessArgs | client/bot/bot.go:70-73 | The command runs with at least one argument. The arguments are space-free and join back to the payload. |
| Bridge.ProcessFailsOnlyOnSend | client/bot/bot.go:78-107 | `process` returns an error exactly when auth succeeded and the send of the command output failed. |
| Bridge.ReplyIndependentOfSend | client/bot/bot.go:78-107 | The reply built does not depend on the connection's send behaviour or its send count. |
| Bridge.PingPong | client/bot/bot.go:69-108 | Payload "ping" is the single argument "ping". If the backend answers "pong", the sender gets the text reply "pong". |
| Dispatch.RunSteps | client/bot/bot.go:118-143 | The receive loop consumes at most the script. It hands on one reply per processed event, each addressed as an answer to that event. |
| Dispatch.RunReadsOnlyEventsBeforeStop | client/bot/bot.go:118-128 | Every step before the last one consumed was a received event. A run still receiving has consumed the whole script. |
| Dispatch.RunEndsOnItsLastStep | client/bot/bot.go:119-128 | On a closed exit the run ends there and returns `Close`'s outcome, with no further receive. On a receive error it returns that error. |
| Dispatch.RunFailsOnLastProcessed | client/bot/bot.go:139-141 | A run ending on a processing error ends on the event it just handed to `process`. |
| Dispatch.RunProcessesAccepted | client/bot/bot.go:130-139 | The events handed to `process` are exactly the non-empty text events among those received, in arrival order. |
| Dispatch.RunRepliesInOrder | client/bot/bot.go:118-143 | The run's sends are the replies `process` makes for the accepted events, one each, in receive order, numbered on from the connection's earlier sends. |
| Dispatch.RunProcessOutcomes | client/bot/bot.go:139-141 | Every processing call before the last succeeded. The last fails, with the run's error, exactly when the run ended on a processing error. |
| Dispatch.RunOutcome | client/bot/bot.go:110-143 | A failed `Stream` returns its error without receiving or sending anything. On an open stream `run` reads only received events until the step that stops it, and a run still receiving has read the whole script. It stops on exit closed (with `Close`'s outcome), on a receive error (returning it), or on a processing error of the last event it handed to `process`. The events handed to `process` are exactly the accepted events received. The sends are their replies in order, numbered from the connection's first send. Every `process` call but a failing last one returns nil. |
| Dispatch.RunIgnoresUnread | client/bot/bot.go:119-128 | Once `run` has returned, replacing the script after its last consumed step changes nothing, sends included. |
| Dispatch.RejectedEventsInvisible | client/bot/bot.go:130-137 | Non-text or empty events in front of a script change nothing but the receive count: no processing, no sends, same end. |
| Dispatch.HealthyStreamAnswersAll | client/bot/bot.go:118-143 | If every send succeeds and only events arrive, every accepted event is answered in order and the run keeps receiving. |
| Dispatch.Loop | client/bot/bot.go:52-67 | Each run is a fresh `Stream` attempt from the script, in order. There is exactly one backoff per run that returned an error. |
| Dispatch.LoopEnds | client/bot/bot.go:52-67 | The loop moves on after every run that returned, whatever it returned. It returns only on seeing exit, before any further `Stream`. Otherwise it is blocked in the last run's `Recv`, or still retrying. |
| Dispatch.LoopRetriesUntilExit | client/bot/bot.go:55-65 | If exit is first seen at iteration e and every earlier run returned, the loop makes exactly e runs and then returns. |
| Lifecycle.Start | client/bot/bot.go:146-165 | `start` returns nil exactly when every input initialises and starts. Otherwise it returns the first failing input's error. Loops are spawned for exactly the inputs before that one. Nothing after it is touched, and `Start` never follows a failed `Init`. The call trace is exactly `Init`, `Start` on each input that came up, in order, then `Init` on the failing input and its `Start` only if `Init` succeeded. |
| Lifecycle.UpCallsOrder | client/bot/bot.go:153-157 | On every input that comes up, `Init` is called immediately before `Start`, and the inputs are visited in order. |
| Lifecycle.Stop | client/bot/bot.go:167-180 | `stop` closes exit and calls `Stop` on every input in order, failures included. It logs exactly the failures and always returns nil. |
| Lifecycle.Resolve | client/bot/bot.go:200-214 | The first unknown non-empty name is reported, and all names before it are known. Otherwise the resolved names are exactly the distinct non-empty names given. |
| Lifecycle.Serve | client/bot/bot.go:227-245 | `stop` runs exactly when every input starts and the service returns cleanly, and then it logs exactly the inputs' stop failures. A failed start reports the first failing input's error. A failed service is reported only after every input started. |
| Lifecycle.Launch | client/bot/bot.go:227-245 | The ending of `Serve`, stated on input names (`EndsAs`): a clean stop exactly when every named input comes up and the service returns nil, with the named inputs' stop failures logged. A failed start reports the first named input, in start order, that does not come up. A failed service is reported only once every named input has come up. |
| Lifecycle.Boot | client/bot/bot.go:182-245 | The command stops on an unknown name exactly when some configured name is unknown, and names one of those. Otherwise the bot serves exactly the configured names, each once, all of them known. It stops cleanly exactly when all of them come up and the service returns nil, and then logs exactly their stop failures. A failed start reports the first of them that does not come up, and a failed service is reported with the service's own error. |

## Left out

- Goroutines and the exit channel's close semantics are not modelled. Exit
  is a value the script supplies at each check. The spawned loops of `start`
  are not run against each other, because they share nothing but exit.
- `sync.RWMutex` is not modelled: `process` only reads under it, and the
  model is sequential.
- `time.Sleep` after a failed run is not timed; it is counted as one backoff.
- The Discord, Slack and Telegram transports are not modelled. `Stream` is an
  input to `loop`, `Recv` a script, and `Send` an oracle indexed by the send
  count on the connection. `Close` is a fixed outcome.
- Nakama authentication and `ExecuteCommandC` are not modelled; both are
  oracles. They are pure functions of the platform message, and of the
  session and arguments. So two identical messages always authenticate and
  execute alike, where the real backend is stateful and networked. No
  property here compares two calls. So is the release of the session connection (`defer
  nakamaCtx.Conn.Close()`), which nothing in `process` observes.
- Logging and `fmt.Printf` are left out. That includes the not-found log
  message, which prints the input value instead of the missing name.
- Service registration (`micro.NewService`, `service.Run`) is left out; the
  service's outcome is a parameter of `Lifecycle.Boot`. Also left out: CLI
  flag construction in `Commands`, plugins, `newBot` and the empty command
  map.
- Go map iteration order in `start` and `stop` is replaced by a sequence.
  The order `Lifecycle.Resolve` keeps, first occurrence, is one of the orders
  Go may visit. Go draws a fresh order for each `range`, so `stop` may visit
  the inputs in a different order from `start`. The model uses the one
  sequence for both, so the stop failures in `Stopped` are listed in start
  order. In Go they may come in any order.
- Calling `stop` twice panics in Go, because exit would be closed twice.
  The model has one call.
- Go's string/byte conversions are not modelled. Error text and command
  output come from the oracles as bytes. Event `Meta`, a map of `interface{}`
  values, is a map of strings. The platform message an event carries is an
  optional string.

=== FILE: base.dfy ===
/** Shared value types: bytes, optional values, results and Go-style errors.

    A Go `error` is modelled by the bytes of its `Error()` text, which is the
    only thing the bot ever does with one besides returning it.
 */
module Base {

  /** One octet of a Go `[]byte`. */
  newtype byte = x: int | 0 <= x < 256

  /** A Go `error` value, reduced to the bytes of its message. */
  datatype Error = Error(text: seq<byte>)

  /** A nil-able value; `None` plays the role of Go's `nil`. */
  datatype Option<+T> = None | Some(value: T)

  /** The `(value, err)` pair of a Go call that yields either a value or an error. */
  datatype Result<+T> = Success(value: T) | Failure(error: Error)

}

=== FILE: bridge.dfy ===
/** `process`: one accepted event in, one reply out.

    The authentication backend, the command executor and the connection's
    `Send` are not part of this model; they are oracles handed in as function
    values, so every property below holds whatever they answer.
 */
module Bridge {
  import opened Base
  import opened Events
  import opened Strings

  /** The byte the payload is split on to form command arguments (`" "`). */
  const Space: byte := 32

  /** An authenticated backend context; only its identity matters here. */
  datatype Session = Session(id: string)

  /** What command execution hands back: output text and an error, both of
      which may be present at once. */
  datatype ExecOutput = ExecOutput(output: seq<byte>, err: Option<Error>)

  /** The command backend: authentication from the platform message, and
      execution of an argument list against a session. */
  datatype Backend = Backend(
    auth: Option<string> -> Result<Session>,
    exec: (Session, seq<seq<byte>>) -> ExecOutput)

  /** `Send` on one connection: the outcome of the n-th send (counted from 0
      on that connection) of the given event. */
  type SendOracle = (nat, Event) -> Option<Error>

  /** What one call of `process` did: the arguments it split the payload
      into, whether it reached command execution, the events it sent, and the
      error it returned (`None` for nil). */
  datatype Processed = Processed(
    args: seq<seq<byte>>,
    executed: bool,
    sent: seq<Event>,
    result: Option<Error>)

  /** `process(c, ev)` where `k` sends have already been made on `c`.

      The payload is split on single spaces; the guard on an empty argument
      list can never fire, because a split always has at least one part. If
      authentication fails the error text goes back to the sender and the
      outcome of that send is dropped. Otherwise the command runs, and its
      output goes back to the sender even when execution reported an error;
      the outcome of that send is what `process` returns.
   */
  function Process(b: Backend, send: SendOracle, k: nat, ev: Event): (p: Processed)
    ensures |p.sent| == 1 && IsReplyTo(p.sent[0], ev)
    ensures p.executed <==> b.auth(ev.origin).Success?
    ensures !p.executed ==>
      p.sent[0].data == b.auth(ev.origin).error.text && p.result == None
    ensures p.executed ==>
      p.sent[0].data == b.exec(b.auth(ev.origin).value, p.args).output
      && p.result == send(k, p.sent[0])
  {
    var args := Split(ev.data, Space);
    if |args| == 0 then
      assert false;
      Processed(args, false, [], None)
    else
      match b.auth(ev.origin)
      case Failure(e) =>
        var reply := ReplyTo(ev, e.text);
        Processed(args, false, [reply], None)
      case Success(session) =>
        var out := b.exec(session, args);
        var reply := ReplyTo(ev, out.output);
        Processed(args, true, [reply], send(k, reply))
  }

  /** The arguments a command runs with are the payload's space-free pieces:
      there is at least one, and joining them with single spaces gives back
      the payload exactly. */
  lemma ProcessArgs(b: Backend, send: SendOracle, k: nat, ev: Event)
    ensures var args := Process(b, send, k, ev).args;
      |args| >= 1 && Join(args, Space) == ev.data
      && forall i :: 0 <= i < |args| ==> Space !in args[i]
  {
    JoinSplit(ev.data, Space);
  }

  /** `process` fails only by a failed `Send` of a command's output: an
      authentication failure never stops the stream, however the send of the
      error reply went, and an execution error never does by itself. */
  lemma ProcessFailsOnlyOnSend(b: Backend, send: SendOracle, k: nat, ev: Event)
    ensures var p := Process(b, send, k, ev);
      p.result.Some? <==> b.auth(ev.origin).Success? && send(k, p.sent[0]).Some?
  {
  }

  /** The reply does not depend on the transport: two connections whose sends
      behave differently are sent the same reply. */
  lemma ReplyIndependentOfSend(b: Backend, s1: SendOracle, s2: SendOracle, k1: nat, k2: nat, ev: Event)
    ensures Process(b, s1, k1, ev).sent == Process(b, s2, k2, ev).sent
  {
  }

  /** The worked exchange: "ping" is one argument, and when the backend
      authenticates and answers "pong" the sender receives a text reply
      "pong", and `process` returns what that send returned. */
  lemma PingPong(b: Backend, send: SendOracle, k: nat, ev: Event, s: Session)
    requires ev.data == [112, 105, 110, 103]
    requires b.auth(ev.origin) == Success(s)
    requires b.exec(s, [[112, 105, 110, 103]]) == ExecOutput([112, 111, 110, 103], None)
    ensures var p := Process(b, send, k, ev);
      p.args == [ev.data]
      && p.sent == [Event(TextEvent, ev.to, ev.from, [112, 111, 110, 103], ev.meta, None)]
      && p.result == send(k, p.sent[0])
  {
    var args := Split(ev.data, Space);
    assert args == [ev.data] by {
      assert Space !in ev.data;
      SplitJoin([ev.data], Space);
    }
  }

}

=== FILE: dispatch.dfy ===
/** The per-input dispatch: `run`, which streams one connection until it
    closes or fails, and `loop`, which keeps reconnecting until exit.

    The transport is a script. One `Step` is what one iteration of `run`'s
    `select` sees: the exit channel already closed, or else the outcome of
    one `Recv`. A script that runs out leaves `run` waiting in `Recv`.
 */
module Dispatch {
  import opened Base
  import opened Events
  import opened Bridge

  /** What one iteration of the receive loop observes. */
  datatype Step = ExitClosed | Received(ev: Event) | RecvError(err: Error)

  /** The sending side of an open connection, and the outcome of closing it. */
  datatype Transport = Transport(send: SendOracle, close: Option<Error>)

  /** An open connection: how it answers sends and closing, and the script
      its receive loop will observe. */
  datatype Conn = Conn(transport: Transport, steps: seq<Step>)

  /** How a call of `run` ended. */
  datatype RunEnd =
    | StreamFailed(err: Error)
    | Closed(closeResult: Option<Error>)
    | RecvFailed(err: Error)
    | ProcessFailed(err: Error)
    | Receiving
  {
    /** `run` has returned (it is not still blocked in `Recv`). */
    predicate Returned()
    {
      !Receiving?
    }

    /** The error `run` returned; `None` is nil. */
    function Err(): Option<Error>
      requires Returned()
    {
      match this
      case Closed(r) => r
      case StreamFailed(e) => Some(e)
      case RecvFailed(e) => Some(e)
      case ProcessFailed(e) => Some(e)
    }
  }

  /** One call of `run`: how many script steps it consumed, the events it
      handed to `process`, the replies it sent, and how it ended. */
  datatype RunTrace = RunTrace(consumed: nat, processed: seq<Event>, sent: seq<Event>, end: RunEnd)

  /** The received events of a script that the bot acts on, in order. */
  function AcceptedEvents(steps: seq<Step>): seq<Event>
  {
    if |steps| == 0 then []
    else
      (if steps[0].Received? && Accepted(steps[0].ev) then [steps[0].ev] else [])
      + AcceptedEvents(steps[1..])
  }

  /** The receive loop of `run` on an open connection that has already made
      `k` sends.

      It stops at the first step that is not a received event: on a closed
      exit channel it closes the connection and returns the close outcome, on
      a receive error it returns that error. Events that are not text, or
      that are empty, are skipped. Every other event is handed to `process`,
      in arrival order, and the first error `process` returns ends the run.
      Each event handed on is answered by exactly one reply.
   */
  function RunSteps(b: Backend, tr: Transport, steps: seq<Step>, k: nat): (t: RunTrace)
    ensures t.consumed <= |steps|
    ensures !t.end.StreamFailed?
    ensures |t.sent| == |t.processed|
    ensures forall i :: 0 <= i < |t.sent| ==> IsReplyTo(t.sent[i], t.processed[i])
    decreases |steps|
  {
    if |steps| == 0 then RunTrace(0, [], [], Receiving)
    else
      match steps[0]
      case ExitClosed =>
        RunTrace(1, [], [], Closed(tr.close))
      case RecvError(e) =>
        RunTrace(1, [], [], RecvFailed(e))
      case Received(ev) =>
        if ev.kind != TextEvent then
          Skip(RunSteps(b, tr, steps[1..], k))
        else if |ev.data| == 0 then
          Skip(RunSteps(b, tr, steps[1..], k))
        else
          var p := Process(b, tr.send, k, ev);
          if p.result.Some? then
            RunTrace(1, [ev], p.sent, ProcessFailed(p.result.value))
          else
            var rest := RunSteps(b, tr, steps[1..], k + 1);
            RunTrace(1 + rest.consumed, [ev] + rest.processed, p.sent + rest.sent, rest.end)
  }

  /** Every step `run` consumed before its last one was a received event;
      a run still receiving has consumed the whole script, and all of it was
      received events. */
  lemma {:induction false} RunReadsOnlyEventsBeforeStop(b: Backend, tr: Transport, steps: seq<Step>, k: nat)
    ensures var t := RunSteps(b, tr, steps, k);
      && (forall j :: 0 <= j < t.consumed - 1 ==> steps[j].Received?)
      && (t.end.Receiving? ==>
            t.consumed == |steps| && forall j :: 0 <= j < |steps| ==> steps[j].Received?)
    decreases |steps|
  {
    if |steps| > 0 && steps[0].Received? {
      var ev := steps[0].ev;
      var k' := if Accepted(ev) then k + 1 else k;
      if !Accepted(ev) || Process(b, tr.send, k, ev).result.None? {
        RunReadsOnlyEventsBeforeStop(b, tr, steps[1..], k');
        var t := RunSteps(b, tr, steps, k);
        var rest := RunSteps(b, tr, steps[1..], k');
        assert t.consumed == rest.consumed + 1 && t.end == rest.end;
        forall j | 1 <= j < |steps| ensures steps[j] == steps[1..][j - 1] { }
      }
    }
  }

  /** A run that returned on its own script step ended on that step: a
      closed exit returns the close outcome and a receive error returns that
      error. */
  lemma {:induction false} RunEndsOnItsLastStep(b: Backend, tr: Transport, steps: seq<Step>, k: nat)
    ensures var t := RunSteps(b, tr, steps, k);
      && (t.end.Closed? ==>
            t.consumed > 0 && steps[t.consumed - 1] == ExitClosed && t.end.closeResult == tr.close)
      && (t.end.RecvFailed? ==>
            t.consumed > 0 && steps[t.consumed - 1] == RecvError(t.end.err))
    decreases |steps|
  {
    if |steps| > 0 && steps[0].Received? {
      var ev := steps[0].ev;
      var k' := if Accepted(ev) then k + 1 else k;
      if !Accepted(ev) || Process(b, tr.send, k, ev).result.None? {
        RunEndsOnItsLastStep(b, tr, steps[1..], k');
        var t := RunSteps(b, tr, steps, k);
        var rest := RunSteps(b, tr, steps[1..], k');
        assert t.consumed == rest.consumed + 1 && t.end == rest.end;
        assert rest.consumed > 0 ==> steps[t.consumed - 1] == steps[1..][rest.consumed - 1];
      }
    }
  }

  /** A run that ended on a processing error ended on the last event it
      handed to `process`. */
  lemma {:induction false} RunFailsOnLastProcessed(b: Backend, tr: Transport, steps: seq<Step>, k: nat)
    ensures var t := RunSteps(b, tr, steps, k);
      t.end.ProcessFailed? ==>
        t.consumed > 0 && |t.processed| > 0
        && steps[t.consumed - 1] == Received(t.processed[|t.processed| - 1])
    decreases |steps|
  {
    if |steps| > 0 && steps[0].Received? {
      var ev := steps[0].ev;
      if !Accepted(ev) {
        RunFailsOnLastProcessed(b, tr, steps[1..], k);
        RunStepSkipped(b, tr, steps, k);
        var rest := RunSteps(b, tr, steps[1..], k);
        assert rest.consumed > 0 ==> steps[rest.consumed] == steps[1..][rest.consumed - 1];
      } else if Process(b, tr.send, k, ev).result.None? {
        RunFailsOnLastProcessed(b, tr, steps[1..], k + 1);
        RunStepAnswered(b, tr, steps, k);
        var rest := RunSteps(b, tr, steps[1..], k + 1);
        assert rest.consumed > 0 ==> steps[rest.consumed] == steps[1..][rest.consumed - 1];
        assert |rest.processed| > 0 ==>
          ([ev] + rest.processed)[|rest.processed|] == rest.processed[|rest.processed| - 1];
      }
    }
  }

  /** An event the bot does not act on, at the head of the script, only
      adds one to the steps consumed. */
  lemma RunStepSkipped(b: Backend, tr: Transport, steps: seq<Step>, k: nat)
    requires |steps| > 0 && steps[0].Received? && !Accepted(steps[0].ev)
    ensures RunSteps(b, tr, steps, k) == Skip(RunSteps(b, tr, steps[1..], k))
  {
  }

  /** One answered event at the head of the script: the run is that event
      followed by the run on the rest, with one more send made. */
  lemma RunStepAnswered(b: Backend, tr: Transport, steps: seq<Step>, k: nat)
    requires |steps| > 0 && steps[0].Received? && Accepted(steps[0].ev)
    requires Process(b, tr.send, k, steps[0].ev).result.None?
    ensures var t := RunSteps(b, tr, steps, k);
      var rest := RunSteps(b, tr, steps[1..], k + 1);
      && t.consumed == rest.consumed + 1
      && t.processed == [steps[0].ev] + rest.processed
      && t.end == rest.end
  {
  }

  /** The events `run` hands to `process` are exactly the accepted events
      among the steps it consumed, in the order they arrived. */
  lemma {:induction false} RunProcessesAccepted(b: Backend, tr: Transport, steps: seq<Step>, k: nat)
    ensures var t := RunSteps(b, tr, steps, k);
      t.processed == AcceptedEvents(steps[..t.consumed])
    decreases |steps|
  {
    var t := RunSteps(b, tr, steps, k);
    if |steps| > 0 {
      assert steps[..t.consumed][0] == steps[0];
      if steps[0].Received? {
        var ev := steps[0].ev;
        assert steps[..t.consumed][1..] == steps[1..][..t.consumed - 1];
        if !Accepted(ev) {
          RunProcessesAccepted(b, tr, steps[1..], k);
        } else if Process(b, tr.send, k, ev).result.None? {
          RunProcessesAccepted(b, tr, steps[1..], k + 1);
        } else {
          assert AcceptedEvents(steps[..1][1..]) == [];
        }
      }
    }
  }

  /** The replies `process` sends for `evs`, handled one after another on a
      connection that has already made `k` sends. */
  function Replies(b: Backend, send: SendOracle, k: nat, evs: seq<Event>): (r: seq<Event>)
    ensures |r| == |evs|
    decreases |evs|
  {
    if |evs| == 0 then []
    else Process(b, send, k, evs[0]).sent + Replies(b, send, k + 1, evs[1..])
  }

  /** Every one of `evs`, handled in turn from send number `k` on, is
      processed without error. */
  predicate AllSucceed(b: Backend, send: SendOracle, k: nat, evs: seq<Event>)
    decreases |evs|
  {
    |evs| == 0 || (Process(b, send, k, evs[0]).result.None? && AllSucceed(b, send, k + 1, evs[1..]))
  }

  /** The replies of a run are those `process` makes for the events it was
      handed, one each, in the order the events arrived, numbered on from the
      sends the connection had already made. */
  lemma {:induction false} RunRepliesInOrder(b: Backend, tr: Transport, steps: seq<Step>, k: nat)
    ensures var t := RunSteps(b, tr, steps, k);
      t.sent == Replies(b, tr.send, k, t.processed)
    decreases |steps|
  {
    if |steps| > 0 && steps[0].Received? {
      var ev := steps[0].ev;
      if !Accepted(ev) {
        RunRepliesInOrder(b, tr, steps[1..], k);
      } else if Process(b, tr.send, k, ev).result.None? {
        RunRepliesInOrder(b, tr, steps[1..], k + 1);
        var rest := RunSteps(b, tr, steps[1..], k + 1);
        assert ([ev] + rest.processed)[1..] == rest.processed;
      } else {
        assert [ev][1..] == [];
      }
    }
  }

  /** `evs`, handled in turn from send number `k` on, are all processed
      without error except the last, whose processing fails with `err`. */
  predicate FailsAtLast(b: Backend, send: SendOracle, k: nat, evs: seq<Event>, err: Error)
    decreases |evs|
  {
    if |evs| == 0 then false
    else if |evs| == 1 then Process(b, send, k, evs[0]).result == Some(err)
    else Process(b, send, k, evs[0]).result.None? && FailsAtLast(b, send, k + 1, evs[1..], err)
  }

  /** Every event a run handed to `process` was processed without error,
      except that a run ending on a processing error ends on the last one,
      which failed with exactly that error. */
  lemma {:induction false} RunProcessOutcomes(b: Backend, tr: Transport, steps: seq<Step>, k: nat)
    ensures var t := RunSteps(b, tr, steps, k);
      if t.end.ProcessFailed? then FailsAtLast(b, tr.send, k, t.processed, t.end.err)
      else AllSucceed(b, tr.send, k, t.processed)
    decreases |steps|
  {
    if |steps| > 0 && steps[0].Received? {
      var ev := steps[0].ev;
      if !Accepted(ev) {
        RunProcessOutcomes(b, tr, steps[1..], k);
      } else if Process(b, tr.send, k, ev).result.None? {
        RunProcessOutcomes(b, tr, steps[1..], k + 1);
        var rest := RunSteps(b, tr, steps[1..], k + 1);
        assert ([ev] + rest.processed)[1..] == rest.processed;
      }
    }
  }

  /** The trace of the rest of the script, counting one more step: the
      skipped event. */
  function Skip(rest: RunTrace): (t: RunTrace)
    ensures t.consumed == rest.consumed + 1
    ensures t.processed == rest.processed && t.sent == rest.sent && t.end == rest.end
  {
    rest.(consumed := rest.consumed + 1)
  }

  /** `run`: open a stream on the input, then run the receive loop on it. */
  function Run(b: Backend, stream: Result<Conn>): (t: RunTrace)
    ensures t.end.StreamFailed? <==> stream.Failure?
    ensures stream.Failure? ==>
      t.consumed == 0 && t.sent == [] && t.processed == [] && t.end.err == stream.error
  {
    match stream
    case Failure(e) => RunTrace(0, [], [], StreamFailed(e))
    case Success(c) => RunSteps(b, c.transport, c.steps, 0)
  }

  /** What one call of `run` does. A failed `Stream` returns its error
      without receiving or sending anything. On an open connection `run`
      reads only received events until the step that stops it, and it stops
      only on a closed exit (returning the outcome of closing the
      connection), a receive error (returning it), or a processing error on
      the last event it handed to `process`; a run that is still receiving
      has read the whole script. The events handed to `process` are the
      accepted events it received, answered in order with sends numbered
      from 0, and every `process` call but a failing last one returned nil. */
  lemma RunOutcome(b: Backend, stream: Result<Conn>)
    ensures var t := Run(b, stream);
      && (stream.Failure? ==>
            t.consumed == 0 && t.sent == [] && t.processed == [] && t.end == StreamFailed(stream.error))
      && (stream.Success? ==>
            var c := stream.value;
            && t.consumed <= |c.steps|
            && (forall j :: 0 <= j < t.consumed - 1 ==> c.steps[j].Received?)
            && (t.end.Receiving? ==> t.consumed == |c.steps|)
            && t.processed == AcceptedEvents(c.steps[..t.consumed])
            && t.sent == Replies(b, c.transport.send, 0, t.processed)
            && (if t.end.ProcessFailed? then FailsAtLast(b, c.transport.send, 0, t.processed, t.end.err)
                else AllSucceed(b, c.transport.send, 0, t.processed))
            && (t.end.Closed? ==>
                  t.consumed > 0 && c.steps[t.consumed - 1] == ExitClosed
                  && t.end.closeResult == c.transport.close)
            && (t.end.RecvFailed? ==>
                  t.consumed > 0 && c.steps[t.consumed - 1] == RecvError(t.end.err))
            && (t.end.ProcessFailed? ==>
                  t.consumed > 0 && |t.processed| > 0
                  && c.steps[t.consumed - 1] == Received(t.processed[|t.processed| - 1])))
  {
    if stream.Success? {
      var c := stream.value;
      RunReadsOnlyEventsBeforeStop(b, c.transport, c.steps, 0);
      RunProcessesAccepted(b, c.transport, c.steps, 0);
      RunRepliesInOrder(b, c.transport, c.steps, 0);
      RunProcessOutcomes(b, c.transport, c.steps, 0);
      RunEndsOnItsLastStep(b, c.transport, c.steps, 0);
      RunFailsOnLastProcessed(b, c.transport, c.steps, 0);
    }
  }

  /** Once `run` has returned, it has read nothing past the step that ended
      it: replacing everything after that step leaves the whole run, sends
      included, unchanged. In particular no receive follows a closed exit. */
  lemma {:induction false} RunIgnoresUnread(b: Backend, tr: Transport, steps: seq<Step>, k: nat, more: seq<Step>)
    requires RunSteps(b, tr, steps, k).end.Returned()
    ensures var t := RunSteps(b, tr, steps, k);
      RunSteps(b, tr, steps[..t.consumed] + more, k) == t
    decreases |steps|
  {
    var t := RunSteps(b, tr, steps, k);
    var s' := steps[..t.consumed] + more;
    assert s'[0] == steps[0];
    if steps[0].Received? {
      var ev := steps[0].ev;
      assert s'[1..] == steps[1..][..t.consumed - 1] + more;
      if !Accepted(ev) {
        RunIgnoresUnread(b, tr, steps[1..], k, more);
      } else if Process(b, tr.send, k, ev).result.None? {
        RunIgnoresUnread(b, tr, steps[1..], k + 1, more);
      }
    }
  }

  /** Events the bot does not act on are invisible: a run over a script that
      starts with such events behaves like the run over the rest, apart from
      the extra receives. */
  lemma {:induction false} RejectedEventsInvisible(b: Backend, tr: Transport, pre: seq<Step>, post: seq<Step>, k: nat)
    requires forall j :: 0 <= j < |pre| ==> pre[j].Received? && !Accepted(pre[j].ev)
    ensures var t := RunSteps(b, tr, pre + post, k);
      var u := RunSteps(b, tr, post, k);
      t.consumed == |pre| + u.consumed && t.processed == u.processed
      && t.sent == u.sent && t.end == u.end
    decreases |pre|
  {
    if |pre| > 0 {
      assert (pre + post)[0] == pre[0];
      assert (pre + post)[1..] == pre[1..] + post;
      RejectedEventsInvisible(b, tr, pre[1..], post, k);
    } else {
      assert pre + post == post;
    }
  }

  /** On a connection whose sends all succeed and whose script holds only
      received events, every accepted event is answered, in order, and the run
      is still receiving at the end. */
  lemma {:induction false} HealthyStreamAnswersAll(b: Backend, tr: Transport, steps: seq<Step>, k: nat)
    requires forall n: nat, e: Event :: tr.send(n, e) == None
    requires forall j :: 0 <= j < |steps| ==> steps[j].Received?
    ensures var t := RunSteps(b, tr, steps, k);
      t.end == Receiving && t.processed == AcceptedEvents(steps)
      && |t.sent| == |t.processed|
    decreases |steps|
  {
    if |steps| > 0 {
      var ev := steps[0].ev;
      assert steps[0] == Received(ev);
      if !Accepted(ev) {
        HealthyStreamAnswersAll(b, tr, steps[1..], k);
      } else {
        assert Process(b, tr.send, k, ev).result == None;
        HealthyStreamAnswersAll(b, tr, steps[1..], k + 1);
      }
    }
  }

  /** What one iteration of `loop`'s `select` sees: the exit channel closed,
      or else the outcome of the `Stream` call that `run` makes. */
  datatype LoopStep = ExitSeen | Attempt(stream: Result<Conn>)

  /** How `loop` ended: it returned on exit, it is blocked in some run's
      `Recv`, or its script ran out while it was still reconnecting. */
  datatype LoopEnd = Exited | Blocked | Running

  /** One call of `loop`: the runs it made, how many times it slept before
      reconnecting, and how it ended. */
  datatype LoopTrace = LoopTrace(runs: seq<RunTrace>, backoffs: nat, end: LoopEnd)

  /** The number of runs that returned an error. */
  function Failures(runs: seq<RunTrace>): nat
  {
    if |runs| == 0 then 0
    else (if runs[0].end.Returned() && runs[0].end.Err().Some? then 1 else 0) + Failures(runs[1..])
  }

  /** `loop`: until the exit channel is seen closed, call `run` again and
      again, sleeping once after each run that returned an error. A run that
      returned nil is followed straight away by the next check of exit. Every
      run is a fresh `Stream` attempt taken from the script in order, and
      there is one backoff per failed run. */
  function Loop(b: Backend, steps: seq<LoopStep>): (t: LoopTrace)
    ensures |t.runs| <= |steps|
    ensures forall i :: 0 <= i < |t.runs| ==>
      steps[i].Attempt? && t.runs[i] == Run(b, steps[i].stream)
    ensures t.backoffs == Failures(t.runs)
    decreases |steps|
  {
    if |steps| == 0 then LoopTrace([], 0, Running)
    else
      match steps[0]
      case ExitSeen => LoopTrace([], 0, Exited)
      case Attempt(stream) =>
        var r := Run(b, stream);
        if !r.end.Returned() then
          LoopTrace([r], 0, Blocked)
        else
          var rest := Loop(b, steps[1..]);
          var slept := if r.end.Err().Some? then 1 else 0;
          assert ([r] + rest.runs)[1..] == rest.runs;
          LoopTrace([r] + rest.runs, slept + rest.backoffs, rest.end)
  }

  /** `loop` moves on past every run that returned, whatever it returned;
      it returns only on seeing exit, which it checks before any further
      `Stream`, and otherwise is either blocked in the last run's `Recv` or
      still reconnecting when the script runs out. */
  lemma {:induction false} LoopEnds(b: Backend, steps: seq<LoopStep>)
    ensures var t := Loop(b, steps);
      && (forall i :: 0 <= i < |t.runs| - 1 ==> t.runs[i].end.Returned())
      && (t.end.Exited? ==>
            |t.runs| < |steps| && steps[|t.runs|] == ExitSeen
            && forall i :: 0 <= i < |t.runs| ==> t.runs[i].end.Returned())
      && (t.end.Blocked? ==> |t.runs| > 0 && t.runs[|t.runs| - 1].end.Receiving?)
      && (t.end.Running? ==>
            |t.runs| == |steps| && forall i :: 0 <= i < |t.runs| ==> t.runs[i].end.Returned())
    decreases |steps|
  {
    if |steps| > 0 && steps[0].Attempt? {
      var r := Run(b, steps[0].stream);
      if r.end.Returned() {
        LoopEnds(b, steps[1..]);
        var t := Loop(b, steps);
        var rest := Loop(b, steps[1..]);
        assert t.runs == [r] + rest.runs && t.end == rest.end;
        forall i | 1 <= i < |t.runs| ensures t.runs[i] == rest.runs[i - 1] { }
        assert |rest.runs| < |steps| - 1 ==> steps[|t.runs|] == steps[1..][|rest.runs|];
      }
    }
  }

  /** A loop that reaches the exit check returns without calling `Stream`
      again, and every earlier run, whatever its error, was retried. */
  lemma LoopRetriesUntilExit(b: Backend, steps: seq<LoopStep>, e: nat)
    requires e < |steps| && steps[e] == ExitSeen
    requires forall i :: 0 <= i < e ==> steps[i].Attempt? && Run(b, steps[i].stream).end.Returned()
    ensures var t := Loop(b, steps);
      t.end == Exited && |t.runs| == e
  {
    LoopEnds(b, steps);
  }

}

=== FILE: events.dfy ===
/** The chat events the bot receives and sends, and the two shapes the
    dispatch loop cares about: which events it acts on, and what a reply to an
    event looks like.
 */
module Events {
  import opened Base

  /** An event kind; kinds are plain strings, as in the input package. */
  type EventType = string

  /** The kind of a text message, the only kind the bot answers. */
  const TextEvent: EventType := "text"

  /** A chat event. `origin` is the platform's own message object (the Discord
      message the authentication backend reads); `None` stands for a nil one,
      which is what every event the bot builds carries. `meta` stands for the
      event's metadata map. */
  datatype Event = Event(
    kind: EventType,
    from: string,
    to: string,
    data: seq<byte>,
    meta: map<string, string>,
    origin: Option<string>)

  /** The events the dispatch loop hands on: non-empty text messages. */
  predicate Accepted(ev: Event)
  {
    ev.kind == TextEvent && |ev.data| > 0
  }

  /** `r` is addressed as an answer to `ev`: sender and recipient swapped, the
      same metadata, and of text kind. */
  predicate IsReplyTo(r: Event, ev: Event)
  {
    r.from == ev.to && r.to == ev.from && r.meta == ev.meta && r.kind == TextEvent
  }

  /** The reply the bot builds to `ev`, carrying `data`. */
  function ReplyTo(ev: Event, data: seq<byte>): (r: Event)
    ensures IsReplyTo(r, ev)
    ensures r.data == data
    ensures r.origin == None
  {
    Event(TextEvent, ev.to, ev.from, data, ev.meta, None)
  }

}

=== FILE: lifecycle.dfy ===
/** Bringing the bot's inputs up and down: `start`, `stop`, and the startup
    sequence of the `bot` command that resolves the configured names, starts
    the inputs, serves, and stops them.

    An input's `Init`, `Start` and `Stop` are not part of this model; each
    input carries the outcome each of them would have. Inputs are kept in a
    sequence: the order the bot visits them in is Go map order, which no
    property here depends on.
 */
module Lifecycle {
  import opened Base
  import opened Strings

  /** A configured input, as the outcomes of its lifecycle calls. */
  datatype Input = Input(init: Option<Error>, start: Option<Error>, stop: Option<Error>)

  /** Both `Init` and `Start` succeed on `io`. */
  predicate Healthy(io: Input)
  {
    io.init.None? && io.start.None?
  }

  /** The first `n` inputs all come up. */
  predicate UpTo(inputs: seq<Input>, n: nat)
    requires n <= |inputs|
  {
    forall j :: 0 <= j < n ==> Healthy(inputs[j])
  }

  /** Every input comes up. */
  predicate AllUp(inputs: seq<Input>)
  {
    UpTo(inputs, |inputs|)
  }

  /** `e` is the error of the first input that does not come up. */
  predicate FirstFault(inputs: seq<Input>, e: Error)
  {
    exists i :: 0 <= i < |inputs| && !Healthy(inputs[i]) && UpTo(inputs, i) && e == Fault(inputs[i])
  }

  /** The error `start` reports for an input that does not come up: that of
      `Init` if it failed, otherwise that of `Start`. */
  function Fault(io: Input): (e: Error)
    requires !Healthy(io)
    ensures Some(e) == io.init || (io.init.None? && Some(e) == io.start)
  {
    if io.init.Some? then io.init.value else io.start.value
  }

  /** A lifecycle call `start` makes on the input at an index. */
  datatype Call = InitCall(index: nat) | StartCall(index: nat)

  /** The calls `start` makes on the first `n` inputs when they all come up:
      `Init` then `Start` on each, in input order. */
  function UpCalls(n: nat): (calls: seq<Call>)
    ensures |calls| == 2 * n
  {
    if n == 0 then [] else UpCalls(n - 1) + [InitCall(n - 1), StartCall(n - 1)]
  }

  /** In the calls on inputs that come up, input `i` gets `Init` at position
      `2 * i` and `Start` right after it. */
  lemma {:induction false} UpCallsOrder(n: nat, i: nat)
    requires i < n
    ensures UpCalls(n)[2 * i] == InitCall(i)
    ensures UpCalls(n)[2 * i + 1] == StartCall(i)
  {
    if i < n - 1 {
      UpCallsOrder(n - 1, i);
    }
  }

  /** The calls on inputs that came up touch only those inputs, call
      `Start` only after a successful `Init`, and call both on each. */
  lemma {:induction false} UpCallsCover(inputs: seq<Input>, n: nat)
    requires n <= |inputs| && UpTo(inputs, n)
    ensures forall j :: 0 <= j < |UpCalls(n)| ==>
      UpCalls(n)[j].index < n && (UpCalls(n)[j].StartCall? ==> inputs[UpCalls(n)[j].index].init.None?)
    ensures forall i :: 0 <= i < n ==> InitCall(i) in UpCalls(n) && StartCall(i) in UpCalls(n)
  {
    if n > 0 {
      UpCallsCover(inputs, n - 1);
    }
  }

  /** The calls `start` makes on the input that does not come up: `Init`,
      and `Start` only if `Init` succeeded. */
  function FailingCalls(i: nat, io: Input): (calls: seq<Call>)
    requires !Healthy(io)
    ensures |calls| > 0 && calls[0] == InitCall(i)
    ensures io.init.Some? ==> calls == [InitCall(i)]
    ensures io.init.None? ==> calls == [InitCall(i), StartCall(i)]
  {
    if io.init.Some? then [InitCall(i)] else [InitCall(i), StartCall(i)]
  }

  /** The calls of a `start` that brings up the first `n` inputs and then
      stops, at the input that does not come up if there is one. */
  function StartCalls(inputs: seq<Input>, n: nat): (calls: seq<Call>)
    requires n <= |inputs| && (n < |inputs| ==> !Healthy(inputs[n]))
  {
    UpCalls(n) + (if n < |inputs| then FailingCalls(n, inputs[n]) else [])
  }

  /** The calls of a `start` that stops after the first `n` inputs touch
      nothing past input `n` and call `Start` only after a successful
      `Init`; each input that came up got both calls. */
  lemma StartCallsCover(inputs: seq<Input>, n: nat)
    requires n <= |inputs| && UpTo(inputs, n) && (n < |inputs| ==> !Healthy(inputs[n]))
    ensures var calls := StartCalls(inputs, n);
      && (forall j :: 0 <= j < |calls| ==>
            calls[j].index <= n && calls[j].index < |inputs|
            && (calls[j].StartCall? ==> inputs[calls[j].index].init.None?))
      && (forall i :: 0 <= i < n ==> InitCall(i) in calls && StartCall(i) in calls)
  {
    UpCallsCover(inputs, n);
    var calls := StartCalls(inputs, n);
    forall j | 0 <= j < |calls|
      ensures calls[j].index <= n && calls[j].index < |inputs|
        && (calls[j].StartCall? ==> inputs[calls[j].index].init.None?)
    {
      if j < |UpCalls(n)| {
        assert calls[j] == UpCalls(n)[j];
      }
    }
  }

  /** `start`: for each input in turn, `Init` then `Start`, then spawn its
      loop. The first failure is returned at once: the failing input gets no
      loop and no later input is touched; `Start` is never called on an input
      whose `Init` failed. */
  method Start(inputs: seq<Input>) returns (calls: seq<Call>, spawned: seq<nat>, result: Option<Error>)
    ensures |spawned| <= |inputs|
    ensures forall i :: 0 <= i < |spawned| ==> spawned[i] == i && Healthy(inputs[i])
    ensures result.None? <==> AllUp(inputs)
    ensures result.None? ==> |spawned| == |inputs|
    ensures result.Some? ==>
      |spawned| < |inputs| && !Healthy(inputs[|spawned|]) && result.value == Fault(inputs[|spawned|])
    ensures forall j :: 0 <= j < |calls| ==>
      calls[j].index <= |spawned| && calls[j].index < |inputs|
      && (calls[j].StartCall? ==> inputs[calls[j].index].init.None?)
    ensures forall i :: 0 <= i < |spawned| ==> InitCall(i) in calls && StartCall(i) in calls
    ensures calls == StartCalls(inputs, |spawned|)
  {
    calls, spawned, result := [], [], None;
    var i := 0;
    while i < |inputs|
      invariant 0 <= i <= |inputs|
      invariant |spawned| == i
      invariant forall j :: 0 <= j < i ==> spawned[j] == j && Healthy(inputs[j])
      invariant calls == UpCalls(i)
    {
      calls := calls + [InitCall(i)];
      if inputs[i].init.Some? {
        assert calls == StartCalls(inputs, i);
        StartCallsCover(inputs, i);
        return calls, spawned, inputs[i].init;
      }
      calls := calls + [StartCall(i)];
      if inputs[i].start.Some? {
        assert calls == StartCalls(inputs, i);
        StartCallsCover(inputs, i);
        return calls, spawned, inputs[i].start;
      }
      spawned := spawned + [i];
      i := i + 1;
    }
    assert calls == StartCalls(inputs, i);
    StartCallsCover(inputs, i);
  }

  /** The `Stop` errors of `inputs`, in order. */
  function StopFaults(inputs: seq<Input>): (errs: seq<Error>)
    ensures |errs| <= |inputs|
  {
    if |inputs| == 0 then []
    else
      var last := inputs[|inputs| - 1];
      StopFaults(inputs[..|inputs| - 1]) + (if last.stop.Some? then [last.stop.value] else [])
  }

  /** `stop`: close the exit channel, then call `Stop` on every input,
      logging each failure and carrying on; it always returns nil. */
  method Stop(inputs: seq<Input>) returns (exitClosed: bool, calls: seq<nat>, logged: seq<Error>, result: Option<Error>)
    ensures exitClosed
    ensures |calls| == |inputs| && forall i :: 0 <= i < |calls| ==> calls[i] == i
    ensures logged == StopFaults(inputs)
    ensures result == None
  {
    exitClosed := true;
    calls, logged := [], [];
    var i := 0;
    while i < |inputs|
      invariant 0 <= i <= |inputs|
      invariant |calls| == i && forall j :: 0 <= j < i ==> calls[j] == j
      invariant logged == StopFaults(inputs[..i])
    {
      calls := calls + [i];
      if inputs[i].stop.Some? {
        logged := logged + [inputs[i].stop.value];
      }
      assert inputs[..i + 1][..i] == inputs[..i];
      i := i + 1;
    }
    assert inputs[..i] == inputs;
    result := None;
  }

  /** Looking the configured names up among the known inputs, as the loop
      that fills the bot's input map does: empty names are skipped, the first
      unknown name stops everything, and a name given twice is one input. */
  method Resolve(names: seq<string>, registry: map<string, Input>) returns (unknown: Option<string>, resolved: seq<string>)
    ensures unknown.None? <==> forall i :: 0 <= i < |names| && |names[i]| > 0 ==> names[i] in registry
    ensures unknown.Some? ==>
      exists i :: 0 <= i < |names| && names[i] == unknown.value && |names[i]| > 0 && names[i] !in registry
        && forall j :: 0 <= j < i && |names[j]| > 0 ==> names[j] in registry
    ensures unknown.None? ==>
      (forall n :: n in resolved <==> n in names && |n| > 0)
      && forall i, j :: 0 <= i < j < |resolved| ==> resolved[i] != resolved[j]
  {
    unknown, resolved := None, [];
    var i := 0;
    while i < |names|
      invariant 0 <= i <= |names|
      invariant forall j :: 0 <= j < i && |names[j]| > 0 ==> names[j] in registry
      invariant forall n :: n in resolved <==> n in names[..i] && |n| > 0
      invariant forall a, c :: 0 <= a < c < |resolved| ==> resolved[a] != resolved[c]
    {
      var name := names[i];
      if |name| > 0 {
        if name !in registry {
          return Some(name), resolved;
        }
        if name !in resolved {
          resolved := resolved + [name];
        }
      }
      assert names[..i + 1] == names[..i] + [name];
      i := i + 1;
    }
    assert names[..i] == names;
  }

  /** How the `bot` command ends. */
  datatype BootOutcome =
    | UnknownInput(name: string)        // exits with status 1 before anything starts
    | StartFailed(err: Error)           // exits with status 1; `stop` is never called
    | ServiceFailed(err: Error)         // fatal log and exit; `stop` is never called
    | Stopped(logged: seq<Error>)       // the service returned and `stop` ran

  /** The inputs registered under `names`, in the same order. */
  function Lookup(names: seq<string>, registry: map<string, Input>): (inputs: seq<Input>)
    requires forall i :: 0 <= i < |names| ==> names[i] in registry
    ensures |inputs| == |names|
    ensures forall i :: 0 <= i < |names| ==> inputs[i] == registry[names[i]]
  {
    if |names| == 0 then [] else [registry[names[0]]] + Lookup(names[1..], registry)
  }

  /** The part of the `bot` command after the inputs are known: start them,
      run the service (whose outcome is `serviceErr`), then stop them. A
      failed start exits the process, and a failed service ends it through a
      fatal log; neither calls `stop`. */
  method Serve(inputs: seq<Input>, serviceErr: Option<Error>) returns (outcome: BootOutcome)
    ensures !outcome.UnknownInput?
    ensures outcome.Stopped? <==> AllUp(inputs) && serviceErr.None?
    ensures outcome.StartFailed? ==>
      FirstFault(inputs, outcome.err)
    ensures outcome.ServiceFailed? ==>
      Some(outcome.err) == serviceErr && AllUp(inputs)
    ensures outcome.Stopped? ==> outcome.logged == StopFaults(inputs)
  {
    var calls, spawned, startErr := Start(inputs);
    if startErr.Some? {
      return StartFailed(startErr.value);
    }
    if serviceErr.Some? {
      return ServiceFailed(serviceErr.value);
    }
    var exitClosed, stopCalls, logged, stopErr := Stop(inputs);
    outcome := Stopped(logged);
  }

  /** Every input named in `names` is registered and comes up. */
  predicate AllHealthy(names: seq<string>, registry: map<string, Input>)
  {
    forall n :: n in names ==> n in registry && Healthy(registry[n])
  }

  /** How the `bot` command ends once every name in `names` is known: it
      stops cleanly exactly when every named input comes up and the service
      returns nil, and then logs the named inputs' stop failures; a failed
      start reports the first named input, in start order, that does not
      come up; a failed service reports the service's error, and happens only
      once every named input has come up. */
  predicate EndsAs(names: seq<string>, registry: map<string, Input>, serviceErr: Option<Error>, outcome: BootOutcome)
    requires forall i :: 0 <= i < |names| ==> names[i] in registry
  {
    && !outcome.UnknownInput?
    && (outcome.Stopped? <==> AllHealthy(names, registry) && serviceErr.None?)
    && (outcome.ServiceFailed? ==> Some(outcome.err) == serviceErr && AllHealthy(names, registry))
    && (outcome.StartFailed? ==> FirstFault(Lookup(names, registry), outcome.err))
    && (outcome.Stopped? ==> outcome.logged == StopFaults(Lookup(names, registry)))
  }

  /** `Serve` on the inputs registered under `names`, stated in terms of the
      names. */
  method Launch(names: seq<string>, registry: map<string, Input>, serviceErr: Option<Error>)
    returns (outcome: BootOutcome)
    requires forall i :: 0 <= i < |names| ==> names[i] in registry
    ensures EndsAs(names, registry, serviceErr, outcome)
  {
    var inputs := Lookup(names, registry);
    outcome := Serve(inputs, serviceErr);
    if AllUp(inputs) {
      forall n | n in names ensures n in registry && Healthy(registry[n]) {
        var i :| 0 <= i < |names| && names[i] == n;
        assert inputs[i] == registry[n];
      }
    } else {
      var i :| 0 <= i < |inputs| && !Healthy(inputs[i]);
      assert inputs[i] == registry[names[i]];
    }
  }

  /** The `bot` command: parse the `inputs` flag, resolve the names, and
      serve the inputs they name. An unknown name exits the process before
      anything starts; otherwise `names` are the distinct configured names,
      in the order the bot starts them, and the command ends as `EndsAs`
      describes for them. */
  method Boot(flag: string, registry: map<string, Input>, serviceErr: Option<Error>)
    returns (names: seq<string>, outcome: BootOutcome)
    ensures outcome.UnknownInput? <==> !(forall n :: n in InputNames(flag) ==> n in registry)
    ensures outcome.UnknownInput? ==>
      outcome.name in InputNames(flag) && outcome.name !in registry
    ensures !outcome.UnknownInput? ==>
      (forall n :: n in names <==> n in InputNames(flag))
      && (forall i, j :: 0 <= i < j < |names| ==> names[i] != names[j])
      && (forall i :: 0 <= i < |names| ==> names[i] in registry)
      && EndsAs(names, registry, serviceErr, outcome)
  {
    var parsed := InputNames(flag);
    var unknown;
    unknown, names := Resolve(parsed, registry);
    if unknown.Some? {
      return names, UnknownInput(unknown.value);
    }
    outcome := Launch(names, registry, serviceErr);
  }

}

=== FILE: strings.dfy ===
/** Go's `strings.Split` / `strings.Join` on a single-element separator, and the
    parsing of the comma-separated `inputs` flag built on them.
 */
module Strings {

  /** Number of occurrences of `x` in `s`. */
  function Count<T(==)>(s: seq<T>, x: T): nat
  {
    if |s| == 0 then 0 else (if s[0] == x then 1 else 0) + Count(s[1..], x)
  }

  /** `s` with every occurrence of `x` removed, order kept. */
  function Without<T(==)>(s: seq<T>, x: T): (r: seq<T>)
    ensures x !in r
    ensures |r| == |s| - Count(s, x)
  {
    if |s| == 0 then [] else (if s[0] == x then [] else [s[0]]) + Without(s[1..], x)
  }

  /** All parts laid end to end, with nothing between them. */
  function Concat<T>(parts: seq<seq<T>>): seq<T>
  {
    if |parts| == 0 then [] else parts[0] + Concat(parts[1..])
  }

  /** `strings.Join(parts, sep)`: the parts with one `sep` between neighbours. */
  function Join<T>(parts: seq<seq<T>>, sep: T): seq<T>
  {
    if |parts| == 0 then []
    else if |parts| == 1 then parts[0]
    else parts[0] + [sep] + Join(parts[1..], sep)
  }

  /** `strings.Split(s, sep)`: the maximal runs of `s` between occurrences of
      `sep`. An input with n separators gives n + 1 parts, so even the empty
      input gives one (empty) part, and no part contains the separator.
   */
  function Split<T(==)>(s: seq<T>, sep: T): (parts: seq<seq<T>>)
    ensures |parts| == Count(s, sep) + 1
    ensures forall i :: 0 <= i < |parts| ==> sep !in parts[i]
    decreases |s|
  {
    if |s| == 0 then [[]]
    else
      var rest := Split(s[1..], sep);
      if s[0] == sep then [[]] + rest
      else [[s[0]] + rest[0]] + rest[1..]
  }

  /** Joining the parts of a split with the same separator gives back the input. */
  lemma {:induction false} JoinSplit<T>(s: seq<T>, sep: T)
    ensures Join(Split(s, sep), sep) == s
    decreases |s|
  {
    if |s| > 0 {
      var rest := Split(s[1..], sep);
      JoinSplit(s[1..], sep);
      if s[0] == sep {
        assert Split(s, sep) == [[]] + rest;
        assert ([[]] + rest)[1..] == rest;
      } else {
        assert Split(s, sep) == [[s[0]] + rest[0]] + rest[1..];
        if |rest| > 1 {
          assert ([[s[0]] + rest[0]] + rest[1..])[1..] == rest[1..];
        }
      }
    }
  }

  /** Splitting a separator-free prefix followed by more input extends the
      first part of the split of what follows. */
  lemma {:induction false} SplitPrefix<T>(p: seq<T>, t: seq<T>, sep: T)
    requires sep !in p
    ensures Split(p + t, sep) == [p + Split(t, sep)[0]] + Split(t, sep)[1..]
    decreases |p|
  {
    if |p| > 0 {
      assert (p + t)[1..] == p[1..] + t;
      SplitPrefix(p[1..], t, sep);
      assert [p[0]] + (p[1..] + Split(t, sep)[0]) == p + Split(t, sep)[0];
    } else {
      var parts := Split(t, sep);
      assert p + t == t && p + parts[0] == parts[0];
      assert parts == [parts[0]] + parts[1..];
    }
  }

  /** Splitting a join of separator-free parts recovers the parts: the other
      direction of the round trip. */
  lemma {:induction false} SplitJoin<T>(parts: seq<seq<T>>, sep: T)
    requires |parts| >= 1
    requires forall i :: 0 <= i < |parts| ==> sep !in parts[i]
    ensures Split(Join(parts, sep), sep) == parts
    decreases |parts|
  {
    if |parts| == 1 {
      SplitPrefix(parts[0], [], sep);
      assert parts[0] + [] == parts[0];
    } else {
      var tail := Join(parts[1..], sep);
      SplitJoin(parts[1..], sep);
      assert Join(parts, sep) == parts[0] + ([sep] + tail);
      SplitPrefix(parts[0], [sep] + tail, sep);
      assert ([sep] + tail)[1..] == tail;
      assert Split([sep] + tail, sep) == [[]] + parts[1..];
      assert parts[0] + [] == parts[0];
    }
  }

  /** The parts that are not empty, in their original order. */
  function NonEmpty<T>(parts: seq<seq<T>>): (r: seq<seq<T>>)
    ensures forall i :: 0 <= i < |r| ==> |r[i]| > 0
    ensures |r| <= |parts|
  {
    if |parts| == 0 then []
    else (if |parts[0]| > 0 then [parts[0]] else []) + NonEmpty(parts[1..])
  }

  /** Dropping empty parts does not change what the parts spell out together. */
  lemma {:induction false} ConcatNonEmpty<T>(parts: seq<seq<T>>)
    ensures Concat(NonEmpty(parts)) == Concat(parts)
  {
    if |parts| > 0 {
      ConcatNonEmpty(parts[1..]);
      ConcatAppend(if |parts[0]| > 0 then [parts[0]] else [], NonEmpty(parts[1..]));
    }
  }

  /** `Concat` distributes over appending lists of parts. */
  lemma {:induction false} ConcatAppend<T>(a: seq<seq<T>>, b: seq<seq<T>>)
    ensures Concat(a + b) == Concat(a) + Concat(b)
  {
    if |a| > 0 {
      assert (a + b)[1..] == a[1..] + b;
      ConcatAppend(a[1..], b);
    } else {
      assert a + b == b;
    }
  }

  /** Laying the parts of a split end to end gives the input without its separators. */
  lemma {:induction false} ConcatSplit<T>(s: seq<T>, sep: T)
    ensures Concat(Split(s, sep)) == Without(s, sep)
    decreases |s|
  {
    if |s| > 0 {
      var rest := Split(s[1..], sep);
      ConcatSplit(s[1..], sep);
      if s[0] == sep {
        assert ([[]] + rest)[1..] == rest;
      } else {
        var parts := [[s[0]] + rest[0]] + rest[1..];
        assert parts[1..] == rest[1..];
        assert Concat(rest) == rest[0] + Concat(rest[1..]);
      }
    }
  }

  /** Joining two non-empty lists of parts one after the other puts one
      separator between the two joins. */
  lemma {:induction false} JoinAppend<T>(x: seq<seq<T>>, y: seq<seq<T>>, sep: T)
    requires |x| >= 1 && |y| >= 1
    ensures Join(x + y, sep) == Join(x, sep) + [sep] + Join(y, sep)
    decreases |x|
  {
    assert (x + y)[0] == x[0];
    assert (x + y)[1..] == x[1..] + y;
    if |x| > 1 {
      JoinAppend(x[1..], y, sep);
    } else {
      assert x[1..] + y == y;
    }
  }

  /** A separator between two pieces of input splits them apart: the parts
      of the whole are those of the first piece followed by those of the
      second. */
  lemma SplitAppend<T>(a: seq<T>, b: seq<T>, sep: T)
    ensures Split(a + [sep] + b, sep) == Split(a, sep) + Split(b, sep)
  {
    var pa, pb := Split(a, sep), Split(b, sep);
    JoinSplit(a, sep);
    JoinSplit(b, sep);
    JoinAppend(pa, pb, sep);
    SplitJoin(pa + pb, sep);
  }

  /** `NonEmpty` distributes over appending lists of parts. */
  lemma {:induction false} NonEmptyAppend<T>(a: seq<seq<T>>, b: seq<seq<T>>)
    ensures NonEmpty(a + b) == NonEmpty(a) + NonEmpty(b)
  {
    if |a| > 0 {
      assert (a + b)[0] == a[0];
      assert (a + b)[1..] == a[1..] + b;
      NonEmptyAppend(a[1..], b);
    } else {
      assert a + b == b;
    }
  }

  /** Every part of a list without empty parts survives `NonEmpty`. */
  lemma {:induction false} NonEmptyKeepsFull<T>(parts: seq<seq<T>>)
    requires forall i :: 0 <= i < |parts| ==> |parts[i]| > 0
    ensures NonEmpty(parts) == parts
  {
    if |parts| > 0 {
      NonEmptyKeepsFull(parts[1..]);
    }
  }

  /** Separator-free parts stay separator-free after `NonEmpty`. */
  lemma {:induction false} NonEmptyKeepsSeparatorFree<T>(parts: seq<seq<T>>, sep: T)
    requires forall i :: 0 <= i < |parts| ==> sep !in parts[i]
    ensures forall i :: 0 <= i < |NonEmpty(parts)| ==> sep !in NonEmpty(parts)[i]
  {
    if |parts| > 0 {
      NonEmptyKeepsSeparatorFree(parts[1..], sep);
      var head := if |parts[0]| > 0 then [parts[0]] else [];
      assert NonEmpty(parts) == head + NonEmpty(parts[1..]);
    }
  }

  /** The separator between configured input names. */
  const Comma: char := ','

  /** The names listed in the `inputs` flag: the comma-separated parts that are
      not empty, in the order written. */
  function InputNames(flag: string): (names: seq<string>)
    ensures forall i :: 0 <= i < |names| ==> |names[i]| > 0 && Comma !in names[i]
    ensures Concat(names) == Without(flag, Comma)
  {
    var parts := Split(flag, Comma);
    NonEmptyKeepsSeparatorFree(parts, Comma);
    ConcatNonEmpty(parts);
    ConcatSplit(flag, Comma);
    NonEmpty(parts)
  }

  /** Writing non-empty, comma-free names as a comma-separated flag and parsing
      it gives back exactly those names, in order. */
  lemma InputNamesRoundTrip(names: seq<string>)
    requires forall i :: 0 <= i < |names| ==> |names[i]| > 0 && Comma !in names[i]
    ensures InputNames(Join(names, Comma)) == names
  {
    if |names| > 0 {
      SplitJoin(names, Comma);
      NonEmptyKeepsFull(names);
    }
  }

  /** A flag without commas names at most one input: itself, unless it is
      empty. */
  lemma InputNamesSingle(flag: string)
    requires Comma !in flag
    ensures InputNames(flag) == (if |flag| > 0 then [flag] else [])
  {
    SplitJoin([flag], Comma);
    assert Split(flag, Comma) == [flag];
  }

  /** A comma cuts the flag in two, and the names of the whole are those of
      the first piece followed by those of the second. With `InputNamesSingle`
      this fixes the names of every flag, empty parts included: each comma is
      a boundary between names, and nothing else is. */
  lemma InputNamesAppend(a: string, b: string)
    ensures InputNames(a + [Comma] + b) == InputNames(a) + InputNames(b)
  {
    SplitAppend(a, b, Comma);
    NonEmptyAppend(Split(a, Comma), Split(b, Comma));
  }

}
